=== FILE: README.md ===
# BatchClipFlow clip list and batch run, in Dafny

BatchClipFlow is a small desktop tool that cuts one source video into named
segments with ffmpeg. Its window (`VideoClipperApp` in `main.py`) keeps an
ordered clip list of `{start, end, name, status}` records. It saves and loads
that list, together with the source video path and the output directory, as
a JSON document ("清单"). Its start button runs a batch that calls ffmpeg
once per clip that is not yet done.

This project models the non-UI logic of that window:

- `clips.dfy` (`Clips`) defines the clip record and the four status literals
  the tool writes: `等待` (pending), `剪辑中...` (running), `完成` (done) and
  `失败` (failed). Any other loaded text is kept as `Other`. The module also
  holds adding a clip (a blank name becomes `clip_<len+1>`), deleting the
  selected row, the status write of `update_row`, and the entry fields: after
  an add, the start field takes the end time.
- `decimal.dfy` (`Decimal`) is the decimal rendering used in default names.
- `paths.dfy` (`Paths`) holds `splitext`, `join` and `basename` with Python's
  `posixpath` semantics.
- `ffmpeg.dfy` (`Ffmpeg`) builds the per-clip argument vector. It also reads
  such a vector back under ffmpeg's option grammar, to show what the vector
  asks for.
- `project_file.dfy` (`ProjectFile`) defines the saved document and loading
  it with the defaults `""`, `""` and `[]` for missing keys.
- `batch.dfy` (`Batch`) holds the start guard and `process`. The run is a
  sequential fold over the list. ffmpeg is an oracle `Transcoder` mapping
  (clip position, argument vector) to success or failure. The worker thread
  and its UI callbacks are collapsed into that one fold.
- `batch_trace.dfy` (`BatchTrace`) states what a run does against reference
  definitions:
  - which positions it attempts, and in what order;
  - the status writes of each row;
  - that replaying the writes rebuilds the final list;
  - idempotence and retry-of-failures across two runs.
- `windows_only.dfy` (`WindowsOnlyCall`) models the call as written (see
  Findings).
- `results.dfy` (`Results`) defines `Option` and `Result`.

`main.py` handles one source video per list. Clips have no categories, and
outputs go straight into the one output directory, with no per-video
subfolders. The list is saved only when the user asks, and a run ends with a
single "all done" message rather than a per-clip summary.

## Model

| member | source | states |
|---|---|---|
| Decimal.NatToString | main.py:179 | the text is non-empty, all decimal digits, and starts with `0` only for zero, as `str` writes a count |
| Decimal.ParseNatToString | main.py:179 | reading back the decimal text of a number gives that number, so the `n` in `clip_<n>` is recoverable |
| Clips.StatusText | main.py:205 | an unknown status keeps its stored text; on canonical statuses the text is one of the four literals exactly when the status is not `Other` |
| Clips.ParseStatus | main.py:215 | reading a stored status text gives a status whose text is that same string, and `Other` is used only for texts outside the four literals |
| Clips.ParseStatusText | main.py:215 | each of the four literals and each other text maps back to the status it was written from |
| Clips.IsDone | main.py:238 | the skip test holds for the done status, and otherwise only for an unknown status whose text is the done literal |
| Clips.IsDoneIffDone | main.py:238 | the skip test on the status text holds for the done status only; pending, running, failed and unknown texts are all reprocessed |
| Clips.DefaultName | main.py:179 | a blank name becomes `clip_` followed by the decimal digits of the number passed in, with no leading zero |
| Clips.DefaultNamesDistinct | main.py:179 | lists of different lengths give different default names |
| Clips.DefaultNameReusedAfterDelete | main.py:177-194 | names count the current length, so after a delete a blank-name add can repeat a name still in the list |
| Clips.AddClip | main.py:177-181 | appends exactly one clip at the end with status `等待` and leaves the earlier clips as they were; a blank name becomes `clip_<len+1>` |
| Clips.DeleteClip | main.py:189-194 | no selection leaves the list alone; a selected row is removed and later rows shift down by one; a position past the end is refused |
| Clips.AddThenDeleteLast | main.py:177-194 | adding a clip and then deleting the last row restores the earlier list |
| Clips.DeleteRemovesOne | main.py:193 | the list after a delete holds the old clips less exactly the deleted one |
| Clips.SetStatus | main.py:274-275 | writing a row's status changes that field of that row and nothing else |
| Clips.Submit | main.py:177-187 | an add appends one pending clip after the unchanged list, running from the start field to the end field, named by the name field or `clip_<len+1>` when it is blank; afterwards the start and end fields hold the end of the clip just added and the name field is empty |
| Clips.SubmitChainsSegments | main.py:184-187 | two adds where only end and name are edited in between give back-to-back segments |
| Paths.SplitExt | main.py:235 | stem and extension concatenate to the path; the extension is empty or is a dot followed by text with no dot and no separator; a non-empty extension leaves a stem whose final component is not all dots (so `.bashrc` has none) |
| Paths.Ext | main.py:235 | the extension ends the path and is empty or a proper extension |
| Paths.SplitExtOfJoined | main.py:235 | splitting a named stem followed by a proper extension returns that stem and that extension |
| Paths.Join | main.py:241 | the file name ends the joined path; an absolute name replaces the directory; otherwise the directory begins it, and one separator is put between the two exactly when the directory is non-empty and does not already end in one |
| Paths.JoinBasename | main.py:241 | a name with no separator is the final component of the joined path |
| Ffmpeg.ClipCommand | main.py:247-255 | the vector has thirteen entries, starts with the ffmpeg path and ends with the output path |
| Ffmpeg.ParseClipCommand | main.py:247-255 | the vector reads back as: overwrite, seek the input from start to end, read the source, stream-copy with negative timestamps shifted, write the output path, for any field text |
| ProjectFile.ClipToJson | main.py:205 | a clip is saved as an object with exactly the string fields `start`, `end`, `name` and `status`, holding the clip's values and its status text |
| ProjectFile.ClipFromJson | main.py:215 | a record reads as a clip exactly when it is an object with the four string fields, taking their values, with the status read canonically |
| ProjectFile.StringField | main.py:213-214 | an absent key reads as `""`; a present key reads as its string, and only a string is accepted |
| ProjectFile.ClipsField | main.py:215 | an absent clip array reads as `[]`; a present one is read exactly when it is an array of clip records, as those clips in order, with canonical statuses |
| ProjectFile.Save | main.py:205 | the document has exactly the keys `video`, `out` and `clips`, with one record per clip |
| ProjectFile.ClipsFromJson | main.py:215 | the clip array loads when every record is a clip record, as those clips in order; otherwise the position of the first record that is not a clip record is reported |
| ProjectFile.Load | main.py:212-215 | a document loads exactly when it is an object whose present keys hold a string, a string and an array of clip records; a present key keeps its value, an absent one loads as `""`, `""` or `[]`; loaded statuses use `Other` only for non-literal texts |
| ProjectFile.LoadEmptyDocument | main.py:213-215 | an empty document loads as the empty project |
| ProjectFile.LoadVideoOnly | main.py:213-215 | a document holding only a video path loads with that path, an empty output directory and an empty list |
| ProjectFile.LoadSave | main.py:205-215 | save followed by load gives back the same video path, output directory and clip list |
| Batch.OutputPath | main.py:235-241 | the output path ends in the clip name plus the source's extension; unless the name is absolute it begins with the output directory, followed by at most one character, which is a separator |
| Batch.OutputPathBasename | main.py:240-241 | a clip whose name has no separator is written as `<name><ext>` directly in the output directory (the path is the directory, at most one separator, then that file name), `ext` being the source's extension |
| BatchTrace.OutputPathPlain | main.py:240-241 | for an output directory without a trailing separator and a clip name that is not absolute (an empty one included), the output path is exactly `<dir>/<name><ext>` |
| Batch.ClipArgv | main.py:247-255 | the clip's vector runs the found ffmpeg on the source, with the clip's start and end as seek times, writing to the clip's output path |
| Batch.ClipArgvMeaning | main.py:240-255 | each clip's command stream-copies the source from the clip's start to its end into the clip's output path |
| Batch.Outcome | main.py:258-264 | the recorded status is the done literal exactly when the call succeeded, and the failed literal when it raised |
| Batch.RunFrom | main.py:237-267 | from a position on: done clips are untouched, every other clip ends done or failed by its own call's outcome, earlier positions are untouched |
| Batch.Process | main.py:229-267 | times and names are kept; done clips are unchanged; every other clip ends `完成` if and only if its call succeeded and `失败` if and only if it failed |
| Batch.StartGuard | main.py:218-224 | the run starts if and only if an ffmpeg path was found and the list is non-empty; the missing ffmpeg is reported first |
| Batch.StartProcessing | main.py:218-227 | a refused start runs nothing; an accepted one runs the project's list with its video and output directory |
| BatchTrace.ToProcess | main.py:237-238 | the positions not at the done literal, strictly increasing, and all of them |
| BatchTrace.TraceIsExpected | main.py:237-267 | the run's events are, per position to process and in order: mark running, attempt, record the outcome |
| BatchTrace.AttemptsAreToProcess | main.py:237-238 | a run calls ffmpeg for exactly the clips not done, once each, in list order, whatever earlier calls returned |
| BatchTrace.AttemptedIffNotDone | main.py:237-238 | a position is attempted if and only if its clip is not at the done literal |
| BatchTrace.RowStatusSequence | main.py:244-267 | a done row gets no status write; every other row gets running and then done or failed, nothing more |
| BatchTrace.ReplayRebuilds | main.py:274-275 | applying the run's status writes in order to the starting list yields the final list |
| BatchTrace.DoneListIsIdle | main.py:238 | a list whose clips are all done is left unchanged by a run that makes no call |
| BatchTrace.SecondRunIdle | main.py:238-262 | after a run whose every call succeeded, a second run makes no call and changes nothing |
| BatchTrace.SecondRunRetriesFailures | main.py:238-264 | a second run calls ffmpeg for exactly the clips whose call failed in the first |
| BatchTrace.TwoClipScenario | main.py:229-267 | two pending clips with every call succeeding both end done |
| BatchTrace.TwoClipScenarioOrder | main.py:237-241 | for the same two clips, ffmpeg is called for the first and then the second |
| BatchTrace.ScenarioOutputPath | main.py:235-241 | with source `/videos/talk.mp4` and output `/tmp/out`, a clip with a non-empty relative name `n` (such as `a` or `b`) is written at `/tmp/out/<n>.mp4` |
| WindowsOnlyCall.AsWrittenTranscoder | main.py:258-264 | as written, off Windows no call succeeds whatever ffmpeg would do; on Windows a call succeeds exactly when ffmpeg does |
| WindowsOnlyCall.AsWrittenFailsOffWindows | main.py:258-264 | as written, off Windows every attempted clip ends failed |
| WindowsOnlyCall.OffWindowsCounterexample | main.py:258-264 | with an ffmpeg that always succeeds, one pending clip ends failed as written off Windows, and done with the intended call |
| WindowsOnlyCall.AsWrittenOnWindowsIsIntended | main.py:258-264 | on Windows the as-written call gives the same list as the intended one |

## Left out

- Widgets, `setup_ui`, `refresh_tree`, treeview rows, file dialogs and message boxes are user interface. Cancelling a dialog is a no-op in the source.
- The worker thread, `root.after` callbacks and the disabled run button (the only guard against a second concurrent run) are concurrency. The run is one sequential fold.
- `subprocess.run` and the ffmpeg process are replaced by the `Transcoder` oracle. The error text the source prints is discarded.
- `find_ffmpeg` and `check_environment` are PATH and filesystem lookups. The found path is an `Option<string>` input.
- Batch.StartProcessing: `os.makedirs` of the output directory is a filesystem side effect and is not modelled. With an empty output directory it raises before any clip, ending the worker thread with the run button still disabled, so the source runs nothing where the model's accepted start runs the list.
- `select_video` and `select_output` are dialog-driven, including the default of the output directory to the video's folder.
- The progress-bar percentage is floating point and display-only.
- JSON text and file I/O are replaced by a `Json` value. Numbers, booleans and null collapse to `JScalar`.
- ProjectFile.Load: accepts only the shapes save writes, and refuses some documents the source accepts. A non-string `video` or `out` goes through Tk's `StringVar`, whose `get` returns its `str`, so `{"video": 5}` loads as `"5"` there. An empty string or object under `clips` acts as an empty list. A clip record with a non-string field, such as a numeric name, is used as is and formatted with `str` when the run builds its paths. The model reports all of these as `BadField` or `BadClip`. A clip record missing one of its four fields fails in `refresh_tree` in the source, and the model reports it as `BadClip`. Extra keys in a clip record are dropped, where the source keeps and re-saves them.
- Paths.SplitExt: follows `posixpath`. Windows `ntpath` (backslash separators, drive letters) is not modelled.
- Paths.Join: follows `posixpath`. Under `ntpath`, which is what runs on Windows, `join("/tmp/out", "a.mp4")` gives `/tmp/out\a.mp4`.
- Batch.OutputPath: built on `Paths.Join`, so it states the `posixpath` result only. Windows, the one platform where the call as written reaches ffmpeg (see Findings), joins with a backslash.
- BatchTrace.ScenarioOutputPath: the path shown is the `posixpath` one; on Windows it would be `/tmp/out\<n>.mp4`.
- Clips.DeleteClip: the source's selection is always a displayed row. The model's `IndexOutOfRange` stands for the `IndexError` the source would raise otherwise.
- Batch.Process: the outcome of a call is a function of the clip position and argument vector. This covers any pattern of outcomes within one run.
- `build.py` is packaging only.

## Findings

| source | as written | input that shows it | evidently intended | confidence | as-written member | corrected member |
|---|---|---|---|---|---|---|
| main.py:258-264 | every call first builds `subprocess.STARTUPINFO()`, a Windows-only class, inside the `try`, so off Windows it raises before ffmpeg starts and the clip is recorded `失败` | Linux or macOS, ffmpeg found by `find_ffmpeg` (main.py:57-58), one pending clip, an ffmpeg that would succeed | the call runs on every platform `find_ffmpeg` supports, and a successful run records `完成` | not executed; high, since Python documents `STARTUPINFO` as Windows-only | WindowsOnlyCall.OffWindowsCounterexample | Batch.Process |

=== FILE: batch.dfy ===
/** The batch run behind the "start" button: the guard that refuses to
    start, and `process`, which walks the clip list in order, skips clips
    whose status is the done literal, marks the others running, builds the
    output path and ffmpeg command, calls ffmpeg and records the outcome.
    The worker thread and the UI callbacks it schedules are collapsed into
    one sequential fold; ffmpeg itself is an oracle. */
module Batch {
  import opened Results
  import opened Clips
  import Paths
  import Ffmpeg
  import ProjectFile

  /** The external call: given the clip's position and the argument vector,
      whether the ffmpeg run completes (true) or raises (false). The position
      lets one run see any pattern of outcomes. */
  type Transcoder = (nat, seq<string>) -> bool

  /** What a run does, in order: a status write to a row (`update_row`) or
      an attempt to run ffmpeg for a row. */
  datatype Event = Mark(index: nat, status: Status) | Attempt(index: nat, argv: seq<string>)

  /** The clip list after a run, and the events of the run. */
  datatype Run = Run(clips: seq<Clip>, trace: seq<Event>)

  /** What a run reads once at its start: the ffmpeg path, the source video
      and the output directory. */
  datatype Job = Job(ffmpeg: string, src: string, dstDir: string)

  /** The output file of a clip: its name plus the source's extension, in the output directory. */
  function OutputPath(job: Job, name: string): (p: string)
    ensures |p| >= |name + Paths.Ext(job.src)| && p[|p| - |name + Paths.Ext(job.src)|..] == name + Paths.Ext(job.src)
    ensures !(|name| > 0 && name[0] == Paths.Sep) ==> |p| >= |job.dstDir| && p[..|job.dstDir|] == job.dstDir
    ensures !(|name| > 0 && name[0] == Paths.Sep) ==> |p| <= |job.dstDir| + 1 + |name + Paths.Ext(job.src)|
    ensures !(|name| > 0 && name[0] == Paths.Sep) && |p| == |job.dstDir| + 1 + |name + Paths.Ext(job.src)|
            ==> p[|job.dstDir|] == Paths.Sep
  {
    var file := name + Paths.Ext(job.src);
    assert |name| > 0 ==> file[0] == name[0];
    Paths.Join(job.dstDir, name + Paths.Ext(job.src))
  }

  /** A clip name without separators lands directly in the output directory,
      as `<name><ext>`. */
  lemma OutputPathBasename(job: Job, name: string)
    requires Paths.Free(name, Paths.Sep)
    ensures Paths.Basename(OutputPath(job, name)) == name + Paths.Ext(job.src)
    ensures |OutputPath(job, name)| >= |job.dstDir| && OutputPath(job, name)[..|job.dstDir|] == job.dstDir
    ensures |OutputPath(job, name)| <= |job.dstDir| + 1 + |name + Paths.Ext(job.src)|
  {
    var file := name + Paths.Ext(job.src);
    forall k | 0 <= k < |file|
      ensures file[k] != Paths.Sep
    {
      if k >= |name| {
        assert file[k] == Paths.Ext(job.src)[k - |name|];
      }
    }
    Paths.JoinBasename(job.dstDir, file);
  }

  /** The ffmpeg argument vector for one clip. */
  function ClipArgv(job: Job, c: Clip): (argv: seq<string>)
    ensures |argv| == 13 && argv[0] == job.ffmpeg && argv[|argv| - 1] == OutputPath(job, c.name)
    ensures argv[3] == c.start && argv[5] == c.end && argv[7] == job.src
  {
    Ffmpeg.ClipCommand(job.ffmpeg, c.start, c.end, job.src, OutputPath(job, c.name))
  }

  /** The clip's command asks ffmpeg to stream-copy `src` from the clip's
      start to its end into the clip's output path, overwriting it. */
  lemma ClipArgvMeaning(job: Job, c: Clip)
    ensures Ffmpeg.ParseCommand(ClipArgv(job, c))
         == Some(Ffmpeg.Invocation(job.ffmpeg,
                                   map["-y" := "", "-ss" := c.start, "-to" := c.end],
                                   job.src,
                                   map["-c" := "copy", "-avoid_negative_ts" := "1"],
                                   OutputPath(job, c.name)))
  {
    Ffmpeg.ParseClipCommand(job.ffmpeg, c.start, c.end, job.src, OutputPath(job, c.name));
  }

  /** The status recorded after the call: the done literal exactly when the
      call succeeded, so a later run skips exactly the successes. */
  function Outcome(ok: bool): (st: Status)
    ensures Canonical(st)
    ensures StatusText(st) == DoneText <==> ok
    ensures !ok ==> StatusText(st) == FailedText
  {
    if ok then Done else Failed
  }

  /** How a run turns a clip into the argument vector of its call. */
  type Builder = Clip -> seq<string>

  /** The builder of `process`: the clip command for the job's ffmpeg,
      source video and output directory. */
  function CommandFor(job: Job): Builder {
    (c: Clip) => ClipArgv(job, c)
  }

  /** One processed clip: its position, the argument vector of its call and
      the status recorded afterwards. */
  datatype Step = Step(index: nat, argv: seq<string>, outcome: Status)

  /** The step a run takes for clip `c` at position `i`. */
  function StepFor(build: Builder, tx: Transcoder, c: Clip, i: nat): Step {
    var argv := build(c);
    Step(i, argv, Outcome(tx(i, argv)))
  }

  /** The events of one step: mark the row running, attempt the call, record the outcome. */
  function Events(s: Step): seq<Event> {
    [Mark(s.index, Running), Attempt(s.index, s.argv), Mark(s.index, s.outcome)]
  }

  /** The loop of `process` from position `i` on, for any way of building
      the argument vectors. */
  function RunFrom(build: Builder, tx: Transcoder, clips: seq<Clip>, i: nat): (r: Run)
    requires i <= |clips|
    ensures |r.clips| == |clips|
    ensures forall j :: 0 <= j < i ==> r.clips[j] == clips[j]
    ensures forall j :: i <= j < |clips| && IsDone(clips[j]) ==> r.clips[j] == clips[j]
    ensures forall j :: i <= j < |clips| && !IsDone(clips[j]) ==>
              r.clips[j] == clips[j].(status := Outcome(tx(j, build(clips[j]))))
    decreases |clips| - i
  {
    if i == |clips| then Run(clips, [])
    else if IsDone(clips[i]) then RunFrom(build, tx, clips, i + 1)
    else
      var st := StepFor(build, tx, clips[i], i);
      var running := SetStatus(clips, i, Running);
      var finished := SetStatus(running, i, st.outcome);
      var rest := RunFrom(build, tx, finished, i + 1);
      Run(rest.clips, Events(st) + rest.trace)
  }

  /** One whole run over the list. Every clip keeps its times and name;
      a done clip is left as it is; every other clip ends `Done` when its
      call succeeds and `Failed` when it raises, whatever happened to the
      clips before it. */
  function Process(job: Job, tx: Transcoder, clips: seq<Clip>): (r: Run)
    ensures |r.clips| == |clips|
    ensures forall j :: 0 <= j < |clips| ==>
              r.clips[j].start == clips[j].start && r.clips[j].end == clips[j].end && r.clips[j].name == clips[j].name
    ensures forall j :: 0 <= j < |clips| && IsDone(clips[j]) ==> r.clips[j] == clips[j]
    ensures forall j :: 0 <= j < |clips| && !IsDone(clips[j]) ==>
              (r.clips[j].status == Done <==> tx(j, ClipArgv(job, clips[j]))) &&
              (r.clips[j].status == Failed <==> !tx(j, ClipArgv(job, clips[j])))
    ensures AllCanonical(clips) ==> AllCanonical(r.clips)
  {
    RunFrom(CommandFor(job), tx, clips, 0)
  }

  /** Why the start button refuses: no ffmpeg was found, or the list is empty. */
  datatype StartError = NoFfmpeg | EmptyList

  /** The checks of `start_processing_thread`, in its order; on success, the
      ffmpeg path the run will use. */
  function StartGuard(ffmpeg: Option<string>, clips: seq<Clip>): (r: Result<string, StartError>)
    ensures r.Success? <==> ffmpeg.Some? && ffmpeg.value != "" && |clips| > 0
    ensures r.Success? ==> r.value == ffmpeg.value
    ensures ffmpeg.None? || ffmpeg.value == "" ==> r == Failure(NoFfmpeg)
    ensures ffmpeg.Some? && ffmpeg.value != "" && |clips| == 0 ==> r == Failure(EmptyList)
  {
    if ffmpeg.None? || ffmpeg.value == "" then Failure(NoFfmpeg)
    else if |clips| == 0 then Failure(EmptyList)
    else Success(ffmpeg.value)
  }

  /** Pressing start: either a refusal that touches nothing, or a run over
      the project's list with the project's video and output directory. */
  function StartProcessing(ffmpeg: Option<string>, p: ProjectFile.Project, tx: Transcoder): (r: Result<Run, StartError>)
    ensures r.Failure? <==> ffmpeg.None? || ffmpeg.value == "" || |p.clips| == 0
    ensures r.Success? ==> r.value == Process(Job(ffmpeg.value, p.video, p.out), tx, p.clips)
  {
    match StartGuard(ffmpeg, p.clips)
    case Failure(e) => Failure(e)
    case Success(path) => Success(Process(Job(path, p.video, p.out), tx, p.clips))
  }
}

=== FILE: batch_trace.dfy ===
/** What a batch run does, stated against independent reference
    definitions: which positions it attempts and in what order, the status
    writes each clip goes through, that replaying those writes rebuilds the
    final list, and what a second run does after a first. */
module BatchTrace {
  import opened Clips
  import opened Batch
  import Paths

  /** The positions from `i` on whose status is not the done literal, in list order. */
  function ToProcess(clips: seq<Clip>, i: nat): (ps: seq<nat>)
    requires i <= |clips|
    ensures forall k :: 0 <= k < |ps| ==> i <= ps[k] < |clips| && !IsDone(clips[ps[k]])
    ensures forall k, l :: 0 <= k < l < |ps| ==> ps[k] < ps[l]
    ensures forall j :: i <= j < |clips| && !IsDone(clips[j]) ==> j in ps
    decreases |clips| - i
  {
    if i == |clips| then []
    else if IsDone(clips[i]) then ToProcess(clips, i + 1)
    else [i] + ToProcess(clips, i + 1)
  }

  /** Positions attempted by a trace, in order. */
  function Attempts(trace: seq<Event>): seq<nat> {
    if |trace| == 0 then []
    else (if trace[0].Attempt? then [trace[0].index] else []) + Attempts(trace[1..])
  }

  /** The statuses written to row `j` by a trace, in order. */
  function MarksFor(trace: seq<Event>, j: nat): seq<Status> {
    if |trace| == 0 then []
    else (if trace[0].Mark? && trace[0].index == j then [trace[0].status] else []) + MarksFor(trace[1..], j)
  }

  /** Applies the status writes of a trace to a list, one `update_row` at a time. */
  function Replay(clips: seq<Clip>, trace: seq<Event>): seq<Clip>
    decreases |trace|
  {
    if |trace| == 0 then clips
    else
      var e := trace[0];
      var next := if e.Mark? && e.index < |clips| then SetStatus(clips, e.index, e.status) else clips;
      Replay(next, trace[1..])
  }

  /** The events of a list of steps, one step after the other. */
  function Flatten(steps: seq<Step>): seq<Event> {
    if |steps| == 0 then []
    else Events(steps[0]) + Flatten(steps[1..])
  }

  /** The positions of a list of steps, in order. */
  function Indices(steps: seq<Step>): (ps: seq<nat>)
    ensures |ps| == |steps|
    ensures forall k :: 0 <= k < |steps| ==> ps[k] == steps[k].index
  {
    if |steps| == 0 then []
    else [steps[0].index] + Indices(steps[1..])
  }

  /** The reference plan: the step of every listed position, in the listed order. */
  function Planned(build: Builder, tx: Transcoder, clips: seq<Clip>, ps: seq<nat>): (steps: seq<Step>)
    requires forall k :: 0 <= k < |ps| ==> ps[k] < |clips|
    ensures |steps| == |ps|
    ensures forall k :: 0 <= k < |ps| ==> steps[k] == StepFor(build, tx, clips[ps[k]], ps[k])
  {
    seq(|ps|, k requires 0 <= k < |ps| => StepFor(build, tx, clips[ps[k]], ps[k]))
  }

  /** One step attempts its position once and writes its row running, then the outcome. */
  lemma EventsContent(s: Step, j: nat)
    ensures Attempts(Events(s)) == [s.index]
    ensures MarksFor(Events(s), j) == if s.index == j then [Running, s.outcome] else []
  {
    var e := Events(s);
    var e1 := e[1..];
    var e2 := e1[1..];
    assert e1 == [Attempt(s.index, s.argv), Mark(s.index, s.outcome)];
    assert e2 == [Mark(s.index, s.outcome)];
    assert e2[1..] == [];
    assert Attempts(e2) == [];
    assert Attempts(e1) == [s.index];
    assert MarksFor(e2, j) == if s.index == j then [s.outcome] else [];
    assert MarksFor(e1, j) == MarksFor(e2, j);
  }

  lemma {:induction false} AttemptsAppend(a: seq<Event>, b: seq<Event>)
    ensures Attempts(a + b) == Attempts(a) + Attempts(b)
    decreases |a|
  {
    if |a| == 0 {
      assert a + b == b;
    } else {
      var ab := a + b;
      var head := if a[0].Attempt? then [a[0].index] else [];
      assert ab[0] == a[0];
      assert ab[1..] == a[1..] + b;
      assert Attempts(ab) == head + Attempts(ab[1..]);
      assert Attempts(a) == head + Attempts(a[1..]);
      AttemptsAppend(a[1..], b);
      assert head + (Attempts(a[1..]) + Attempts(b)) == (head + Attempts(a[1..])) + Attempts(b);
    }
  }

  lemma {:induction false} MarksForAppend(a: seq<Event>, b: seq<Event>, j: nat)
    ensures MarksFor(a + b, j) == MarksFor(a, j) + MarksFor(b, j)
    decreases |a|
  {
    if |a| == 0 {
      assert a + b == b;
    } else {
      var ab := a + b;
      var head := if a[0].Mark? && a[0].index == j then [a[0].status] else [];
      assert ab[0] == a[0];
      assert ab[1..] == a[1..] + b;
      assert MarksFor(ab, j) == head + MarksFor(ab[1..], j);
      assert MarksFor(a, j) == head + MarksFor(a[1..], j);
      MarksForAppend(a[1..], b, j);
      assert head + (MarksFor(a[1..], j) + MarksFor(b, j)) == (head + MarksFor(a[1..], j)) + MarksFor(b, j);
    }
  }

  /** Pending positions depend only on the statuses from `i` on. */
  lemma {:induction false} ToProcessFrame(a: seq<Clip>, b: seq<Clip>, i: nat)
    requires |a| == |b| && i <= |a|
    requires forall j :: i <= j < |a| ==> a[j] == b[j]
    ensures ToProcess(a, i) == ToProcess(b, i)
    decreases |a| - i
  {
    if i < |a| {
      ToProcessFrame(a, b, i + 1);
      assert a[i] == b[i];
      if IsDone(a[i]) {
        assert ToProcess(a, i) == ToProcess(a, i + 1);
        assert ToProcess(b, i) == ToProcess(b, i + 1);
      } else {
        assert ToProcess(a, i) == [i] + ToProcess(a, i + 1);
        assert ToProcess(b, i) == [i] + ToProcess(b, i + 1);
      }
    }
  }

  /** The plan reads only the listed clips. */
  lemma PlannedFrame(build: Builder, tx: Transcoder, a: seq<Clip>, b: seq<Clip>, ps: seq<nat>)
    requires forall k :: 0 <= k < |ps| ==> ps[k] < |a| && ps[k] < |b| && a[ps[k]] == b[ps[k]]
    ensures Planned(build, tx, a, ps) == Planned(build, tx, b, ps)
  {
  }

  /** Planning a position ahead of a list adds its step ahead of the plan. */
  lemma PlannedCons(build: Builder, tx: Transcoder, clips: seq<Clip>, i: nat, rest: seq<nat>)
    requires i < |clips|
    requires forall k :: 0 <= k < |rest| ==> rest[k] < |clips|
    ensures Planned(build, tx, clips, [i] + rest) == [StepFor(build, tx, clips[i], i)] + Planned(build, tx, clips, rest)
  {
    var ps := [i] + rest;
    assert forall k :: 0 < k < |ps| ==> ps[k] == rest[k - 1];
  }

  /** The run's trace is the reference trace over the positions to process:
      for each clip not done, in list order, running / attempt / outcome. */
  lemma {:induction false} TraceIsExpected(build: Builder, tx: Transcoder, clips: seq<Clip>, i: nat)
    requires i <= |clips|
    ensures RunFrom(build, tx, clips, i).trace == Flatten(Planned(build, tx, clips, ToProcess(clips, i)))
    decreases |clips| - i
  {
    if i == |clips| {
    } else if IsDone(clips[i]) {
      assert RunFrom(build, tx, clips, i) == RunFrom(build, tx, clips, i + 1);
      TraceIsExpected(build, tx, clips, i + 1);
    } else {
      var st := StepFor(build, tx, clips[i], i);
      var finished := SetStatus(SetStatus(clips, i, Running), i, st.outcome);
      assert RunFrom(build, tx, clips, i).trace == Events(st) + RunFrom(build, tx, finished, i + 1).trace;
      TraceIsExpected(build, tx, finished, i + 1);
      ToProcessFrame(finished, clips, i + 1);
      var rest := ToProcess(clips, i + 1);
      PlannedFrame(build, tx, finished, clips, rest);
      assert ToProcess(clips, i) == [i] + rest;
      PlannedCons(build, tx, clips, i, rest);
      var steps := [StepFor(build, tx, clips[i], i)] + Planned(build, tx, clips, rest);
      assert steps[1..] == Planned(build, tx, clips, rest);
    }
  }

  /** A flattened plan attempts exactly its positions, in order. */
  lemma {:induction false} AttemptsOfFlatten(steps: seq<Step>)
    ensures Attempts(Flatten(steps)) == Indices(steps)
    decreases |steps|
  {
    if |steps| > 0 {
      AttemptsAppend(Events(steps[0]), Flatten(steps[1..]));
      EventsContent(steps[0], 0);
      AttemptsOfFlatten(steps[1..]);
    }
  }

  /** A run attempts ffmpeg for exactly the clips whose status is not the
      done literal, once each and in list order; a failed call does not stop
      the ones after it. */
  lemma AttemptsAreToProcess(job: Job, tx: Transcoder, clips: seq<Clip>)
    ensures Attempts(Process(job, tx, clips).trace) == ToProcess(clips, 0)
  {
    TraceIsExpected(CommandFor(job), tx, clips, 0);
    var ps := ToProcess(clips, 0);
    var steps := Planned(CommandFor(job), tx, clips, ps);
    AttemptsOfFlatten(steps);
    assert Indices(steps) == ps;
  }

  /** A position is attempted exactly when its clip is not done. */
  lemma AttemptedIffNotDone(job: Job, tx: Transcoder, clips: seq<Clip>)
    ensures forall j :: 0 <= j < |clips| ==> (j in Attempts(Process(job, tx, clips).trace) <==> !IsDone(clips[j]))
  {
    AttemptsAreToProcess(job, tx, clips);
  }

  /** A flattened plan writes nothing to a row it does not list. */
  lemma {:induction false} MarksOfFlattenAbsent(steps: seq<Step>, j: nat)
    requires forall k :: 0 <= k < |steps| ==> steps[k].index != j
    ensures MarksFor(Flatten(steps), j) == []
    decreases |steps|
  {
    if |steps| > 0 {
      MarksForAppend(Events(steps[0]), Flatten(steps[1..]), j);
      EventsContent(steps[0], j);
      MarksOfFlattenAbsent(steps[1..], j);
    }
  }

  /** A flattened plan whose positions strictly increase writes a listed row
      running, then that step's outcome. */
  lemma {:induction false} MarksOfFlattenPresent(steps: seq<Step>, j: nat, k: nat)
    requires forall m, n :: 0 <= m < n < |steps| ==> steps[m].index < steps[n].index
    requires k < |steps| && steps[k].index == j
    ensures MarksFor(Flatten(steps), j) == [Running, steps[k].outcome]
    decreases |steps|
  {
    var rest := steps[1..];
    MarksForAppend(Events(steps[0]), Flatten(rest), j);
    EventsContent(steps[0], j);
    if k == 0 {
      assert forall m :: 0 <= m < |rest| ==> rest[m].index != j by {
        forall m | 0 <= m < |rest|
          ensures rest[m].index != j
        {
          assert rest[m] == steps[m + 1];
        }
      }
      MarksOfFlattenAbsent(rest, j);
    } else {
      assert steps[0].index < j;
      assert rest[k - 1] == steps[k];
      assert forall m, n :: 0 <= m < n < |rest| ==> rest[m].index < rest[n].index by {
        forall m, n | 0 <= m < n < |rest|
          ensures rest[m].index < rest[n].index
        {
          assert rest[m] == steps[m + 1] && rest[n] == steps[n + 1];
        }
      }
      MarksOfFlattenPresent(rest, j, k - 1);
    }
  }

  /** The status machine of one run: a done clip is written nothing; every
      other clip is written running, then done or failed, and nothing else. */
  lemma RowStatusSequence(job: Job, tx: Transcoder, clips: seq<Clip>, j: nat)
    requires j < |clips|
    ensures IsDone(clips[j]) ==> MarksFor(Process(job, tx, clips).trace, j) == []
    ensures !IsDone(clips[j]) ==> MarksFor(Process(job, tx, clips).trace, j)
                                  == [Running, Outcome(tx(j, ClipArgv(job, clips[j])))]
  {
    TraceIsExpected(CommandFor(job), tx, clips, 0);
    var ps := ToProcess(clips, 0);
    var steps := Planned(CommandFor(job), tx, clips, ps);
    if IsDone(clips[j]) {
      MarksOfFlattenAbsent(steps, j);
    } else {
      var k :| 0 <= k < |ps| && ps[k] == j;
      MarksOfFlattenPresent(steps, j, k);
    }
  }

  /** Replaying the run's status writes from the starting list, one
      `update_row` at a time, yields the run's final list. */
  lemma {:induction false} ReplayRebuilds(build: Builder, tx: Transcoder, clips: seq<Clip>, i: nat)
    requires i <= |clips|
    ensures Replay(clips, RunFrom(build, tx, clips, i).trace) == RunFrom(build, tx, clips, i).clips
    decreases |clips| - i
  {
    if i == |clips| {
    } else if IsDone(clips[i]) {
      assert RunFrom(build, tx, clips, i) == RunFrom(build, tx, clips, i + 1);
      ReplayRebuilds(build, tx, clips, i + 1);
    } else {
      var st := StepFor(build, tx, clips[i], i);
      var finished := SetStatus(SetStatus(clips, i, Running), i, st.outcome);
      var rest := RunFrom(build, tx, finished, i + 1);
      assert RunFrom(build, tx, clips, i) == Run(rest.clips, Events(st) + rest.trace);
      ReplayStep(clips, st, rest.trace);
      ReplayRebuilds(build, tx, finished, i + 1);
    }
  }

  /** Replaying one step performs its two status writes. */
  lemma ReplayStep(clips: seq<Clip>, st: Step, t: seq<Event>)
    requires st.index < |clips|
    ensures Replay(clips, Events(st) + t)
            == Replay(SetStatus(SetStatus(clips, st.index, Running), st.index, st.outcome), t)
  {
    var u := Events(st) + t;
    var running := SetStatus(clips, st.index, Running);
    assert u[0] == Mark(st.index, Running);
    assert Replay(clips, u) == Replay(running, u[1..]);
    assert u[1..][0].Attempt?;
    assert Replay(running, u[1..]) == Replay(running, u[1..][1..]);
    assert u[1..][1..][0] == Mark(st.index, st.outcome);
    assert u[1..][1..][1..] == t;
  }

  /** Every clip of the list is at the done literal. */
  predicate AllDone(clips: seq<Clip>) {
    forall j :: 0 <= j < |clips| ==> IsDone(clips[j])
  }

  /** Every call a run on `clips` would make succeeds. */
  predicate AllSucceed(job: Job, tx: Transcoder, clips: seq<Clip>) {
    forall j :: 0 <= j < |clips| && !IsDone(clips[j]) ==> tx(j, ClipArgv(job, clips[j]))
  }

  /** A list that is all done is a fixed point of a run: no call, no write. */
  lemma DoneListIsIdle(job: Job, tx: Transcoder, clips: seq<Clip>)
    requires AllDone(clips)
    ensures Process(job, tx, clips) == Run(clips, [])
  {
    TraceIsExpected(CommandFor(job), tx, clips, 0);
    var r := Process(job, tx, clips);
    assert r.clips == clips;
  }

  /** Idempotence: after a run in which every call succeeded, a second run
      makes no call and leaves the list as the first run left it. */
  lemma SecondRunIdle(job: Job, tx: Transcoder, tx2: Transcoder, clips: seq<Clip>)
    requires AllSucceed(job, tx, clips)
    ensures Process(job, tx2, Process(job, tx, clips).clips) == Run(Process(job, tx, clips).clips, [])
  {
    assert AllDone(Process(job, tx, clips).clips);
    DoneListIsIdle(job, tx2, Process(job, tx, clips).clips);
  }

  /** Resumption: a second run attempts exactly the clips the first run
      attempted and failed; successes and clips already done are not redone. */
  lemma SecondRunRetriesFailures(job: Job, tx: Transcoder, tx2: Transcoder, clips: seq<Clip>)
    ensures forall j :: 0 <= j < |clips| ==>
              ((j in Attempts(Process(job, tx2, Process(job, tx, clips).clips).trace))
                 <==> !IsDone(clips[j]) && !tx(j, ClipArgv(job, clips[j])))
  {
    var first := Process(job, tx, clips);
    AttemptedIffNotDone(job, tx2, first.clips);
    forall j | 0 <= j < |clips|
      ensures !IsDone(first.clips[j]) <==> !IsDone(clips[j]) && !tx(j, ClipArgv(job, clips[j]))
    {
      if !IsDone(clips[j]) {
        assert first.clips[j].status == Outcome(tx(j, ClipArgv(job, clips[j])));
      }
    }
  }

  /** The extension of /videos/talk.mp4 is ".mp4". */
  lemma TalkExtension()
    ensures Paths.Ext("/videos/talk.mp4") == ".mp4"
  {
    var stem := "/videos/talk";
    Paths.RFindAfter(stem, '/', 7);
    assert stem[8] != '.';
    assert Paths.HasNamedComponent(stem);
    Paths.SplitExtOfJoined(stem, ".mp4");
    assert stem + ".mp4" == "/videos/talk.mp4";
  }

  /** A transcoder stub whose every call succeeds. */
  function AlwaysOk(j: nat, argv: seq<string>): bool {
    true
  }

  /** The two clips of the scenario below: back-to-back ten-second segments named `a` and `b`. */
  function ScenarioClips(): seq<Clip> {
    [Clip("00:00:00", "00:00:10", "a", Pending), Clip("00:00:10", "00:00:20", "b", Pending)]
  }

  /** Source /videos/talk.mp4, output directory /tmp/out. */
  function ScenarioJob(): Job {
    Job("ffmpeg", "/videos/talk.mp4", "/tmp/out")
  }

  /** Two pending clips, every call succeeding: both end done. */
  lemma TwoClipScenario()
    ensures var r := Process(ScenarioJob(), AlwaysOk, ScenarioClips());
            r.clips[0].status == Done && r.clips[1].status == Done
  {
    var clips := ScenarioClips();
    var job := ScenarioJob();
    assert StatusText(Pending) != DoneText;
    assert !IsDone(clips[0]) && !IsDone(clips[1]);
    assert AlwaysOk(0, ClipArgv(job, clips[0])) && AlwaysOk(1, ClipArgv(job, clips[1]));
  }

  /** Both clips of the scenario are attempted, first `a`, then `b`. */
  lemma TwoClipScenarioOrder()
    ensures Attempts(Process(ScenarioJob(), AlwaysOk, ScenarioClips()).trace) == [0, 1]
  {
    var clips := ScenarioClips();
    assert StatusText(Pending) != DoneText;
    assert !IsDone(clips[0]) && !IsDone(clips[1]);
    assert ToProcess(clips, 2) == [];
    assert ToProcess(clips, 1) == [1];
    assert ToProcess(clips, 0) == [0, 1];
    AttemptsAreToProcess(ScenarioJob(), AlwaysOk, clips);
  }

  /** A clip name that is not absolute, in a directory given without a
      trailing separator, is written at `<dir>/<name><ext>`. */
  lemma OutputPathPlain(job: Job, name: string)
    requires job.dstDir != [] && job.dstDir[|job.dstDir| - 1] != Paths.Sep
    requires !(|name| > 0 && name[0] == Paths.Sep)
    ensures OutputPath(job, name) == job.dstDir + "/" + name + Paths.Ext(job.src)
  {
    var file := name + Paths.Ext(job.src);
    if name == [] {
      assert file == Paths.Ext(job.src);
      assert file == [] || file[0] == Paths.ExtSep;
    } else {
      assert file[0] == name[0];
    }
  }

  /** With source /videos/talk.mp4 and output directory /tmp/out, a clip
      named by a non-empty relative name `n` (`a`, `b`, ...) is written at
      /tmp/out/<n>.mp4. */
  lemma ScenarioOutputPath(name: string)
    requires name != [] && name[0] != Paths.Sep
    ensures OutputPath(ScenarioJob(), name) == "/tmp/out/" + name + ".mp4"
  {
    var job := ScenarioJob();
    TalkExtension();
    OutputPathPlain(job, name);
    assert job.dstDir + "/" == "/tmp/out/";
  }
}

=== FILE: clips.dfy ===
/** The clip list of the clipper window: its records, the status literals the
    list stores, and the edits the window makes to it (add, delete, status
    write, and the entry fields that feed the add). */
module Clips {
  import opened Results
  import Decimal

  /** The four status texts the tool writes into a clip record. */
  const PendingText: string := "等待"
  const RunningText: string := "剪辑中..."
  const DoneText: string := "完成"
  const FailedText: string := "失败"

  /** A clip's status. A loaded project may hold any text in the status
      field; texts other than the four literals are kept as `Other`. */
  datatype Status = Pending | Running | Done | Failed | Other(text: string)

  /** The text stored in the clip record for a status. */
  function StatusText(st: Status): (t: string)
    ensures st.Other? ==> t == st.text
    ensures Canonical(st) ==> (t in {PendingText, RunningText, DoneText, FailedText} <==> !st.Other?)
  {
    match st
    case Pending => PendingText
    case Running => RunningText
    case Done => DoneText
    case Failed => FailedText
    case Other(t) => t
  }

  /** `Other` never stands for one of the four literals, so each text has one status. */
  predicate Canonical(st: Status) {
    st.Other? ==> st.text !in {PendingText, RunningText, DoneText, FailedText}
  }

  /** Reads a stored status text. */
  function ParseStatus(t: string): (st: Status)
    ensures StatusText(st) == t
    ensures Canonical(st)
  {
    if t == PendingText then Pending
    else if t == RunningText then Running
    else if t == DoneText then Done
    else if t == FailedText then Failed
    else Other(t)
  }

  /** Text and status are in one-to-one correspondence on canonical statuses. */
  lemma ParseStatusText(st: Status)
    requires Canonical(st)
    ensures ParseStatus(StatusText(st)) == st
  {
  }

  /** One requested extraction: a time range, an output file stem and a status. */
  datatype Clip = Clip(start: string, end: string, name: string, status: Status)

  predicate AllCanonical(clips: seq<Clip>) {
    forall j :: 0 <= j < |clips| ==> Canonical(clips[j].status)
  }

  /** A batch run skips a clip exactly when its status text is the done literal. */
  predicate IsDone(c: Clip)
    ensures c.status == Done ==> IsDone(c)
    ensures IsDone(c) ==> c.status == Done || c.status == Other(DoneText)
  {
    StatusText(c.status) == DoneText
  }

  /** On canonical statuses the skip test is the `Done` case and nothing else:
      pending, running, failed and unknown texts are all reprocessed. */
  lemma IsDoneIffDone(c: Clip)
    requires Canonical(c.status)
    ensures IsDone(c) <==> c.status == Done
  {
  }

  /** The name given to a clip added with a blank name when `n - 1` clips are listed. */
  function DefaultName(n: nat): (s: string)
    ensures |s| > 5 && s[..5] == "clip_"
    ensures Decimal.AllDigits(s[5..]) && Decimal.ParseNat(s[5..]) == n
    ensures s[5] == '0' ==> n == 0
  {
    Decimal.ParseNatToString(n);
    var s := "clip_" + Decimal.NatToString(n);
    assert s[5..] == Decimal.NatToString(n);
    s
  }

  /** Appends one pending clip; a blank name becomes `clip_<len+1>`. */
  function AddClip(clips: seq<Clip>, start: string, end: string, name: string): (r: seq<Clip>)
    ensures |r| == |clips| + 1
    ensures r[..|clips|] == clips
    ensures r[|clips|].start == start && r[|clips|].end == end && r[|clips|].status == Pending
    ensures name != [] ==> r[|clips|].name == name
    ensures name == [] ==> r[|clips|].name == DefaultName(|clips| + 1)
    ensures AllCanonical(clips) ==> AllCanonical(r)
  {
    var n := if name == [] then DefaultName(|clips| + 1) else name;
    clips + [Clip(start, end, n, Pending)]
  }

  /** Delete refuses a position past the end of the list. */
  datatype EditError = IndexOutOfRange(index: nat)

  /** Deletes the selected row, shifting later rows down; with no selection
      the list is left alone. */
  function DeleteClip(clips: seq<Clip>, selected: Option<nat>): (r: Result<seq<Clip>, EditError>)
    ensures selected.None? ==> r == Success(clips)
    ensures selected.Some? && selected.value >= |clips| ==> r == Failure(IndexOutOfRange(selected.value))
    ensures selected.Some? && selected.value < |clips| ==>
      && r.Success?
      && |r.value| == |clips| - 1
      && (forall j :: 0 <= j < selected.value ==> r.value[j] == clips[j])
      && (forall j :: selected.value <= j < |r.value| ==> r.value[j] == clips[j + 1])
    ensures r.Success? && AllCanonical(clips) ==> AllCanonical(r.value)
  {
    match selected
    case None => Success(clips)
    case Some(i) =>
      if i < |clips| then Success(clips[..i] + clips[i + 1..])
      else Failure(IndexOutOfRange(i))
  }

  /** Deleting the last row right after an add restores the list as it was. */
  lemma AddThenDeleteLast(clips: seq<Clip>, start: string, end: string, name: string)
    ensures DeleteClip(AddClip(clips, start, end, name), Some(|clips|)) == Success(clips)
  {
    var added := AddClip(clips, start, end, name);
    assert added[..|clips|] + added[|clips| + 1..] == clips;
  }

  /** Deleting a row removes exactly that clip: the remaining multiset is the
      old one less the deleted clip. */
  lemma DeleteRemovesOne(clips: seq<Clip>, i: nat)
    requires i < |clips|
    ensures DeleteClip(clips, Some(i)).Success?
    ensures multiset(DeleteClip(clips, Some(i)).value) + multiset{clips[i]} == multiset(clips)
  {
    assert clips == clips[..i] + [clips[i]] + clips[i + 1..];
  }

  /** The status write of one row (`update_row`); nothing else changes. */
  function SetStatus(clips: seq<Clip>, i: nat, st: Status): (r: seq<Clip>)
    requires i < |clips|
    ensures |r| == |clips|
    ensures r[i].start == clips[i].start && r[i].end == clips[i].end && r[i].name == clips[i].name
    ensures r[i].status == st
    ensures forall j :: 0 <= j < |clips| && j != i ==> r[j] == clips[j]
    ensures AllCanonical(clips) && Canonical(st) ==> AllCanonical(r)
  {
    clips[i := clips[i].(status := st)]
  }

  /** The three entry fields under the list. */
  datatype Form = Form(start: string, end: string, name: string)

  /** Pressing "add": the clip is appended from the fields, then the start
      field takes the end time and the name field is cleared, so that the next
      clip continues where this one stopped. */
  function Submit(form: Form, clips: seq<Clip>): (r: (Form, seq<Clip>))
    ensures |r.1| == |clips| + 1 && r.1[..|clips|] == clips && r.1[|clips|].start == form.start
    ensures r.0.start == r.1[|clips|].end && r.0.end == r.1[|clips|].end && r.0.name == []
    ensures r.1[|clips|].end == form.end && r.1[|clips|].status == Pending
    ensures form.name != [] ==> r.1[|clips|].name == form.name
    ensures form.name == [] ==> r.1[|clips|].name == DefaultName(|clips| + 1)
  {
    (Form(form.end, form.end, []), AddClip(clips, form.start, form.end, form.name))
  }

  /** Two adds in a row, with only the end time and name edited in between,
      produce back-to-back segments: the second starts where the first ends. */
  lemma SubmitChainsSegments(form: Form, clips: seq<Clip>, end2: string, name2: string)
    ensures var (f1, c1) := Submit(form, clips);
            var (_, c2) := Submit(f1.(end := end2, name := name2), c1);
            |c2| == |clips| + 2 && c2[|clips| + 1].start == c2[|clips|].end
  {
    var (f1, c1) := Submit(form, clips);
    var (_, c2) := Submit(f1.(end := end2, name := name2), c1);
    assert c2[..|c1|] == c1;
    assert c2[|clips|] == c1[|clips|];
  }

  /** Default names are numbered by the current length, not by a counter, so
      after a delete a blank-name add can repeat a name already in the list:
      both clips then write the same output file. */
  lemma DefaultNameReusedAfterDelete(s: string, e: string)
    ensures var two := AddClip(AddClip([], s, e, []), s, e, []);
            var one := DeleteClip(two, Some(0));
            && one.Success?
            && var again := AddClip(one.value, s, e, []);
               |again| == 2 && again[0].name == again[1].name == DefaultName(2)
  {
    var first := AddClip([], s, e, []);
    var two := AddClip(first, s, e, []);
    assert two[1].name == DefaultName(2);
    var one := DeleteClip(two, Some(0));
    assert one.value[0] == two[1];
  }

  /** Distinct blank-name adds on lists of different lengths get different names. */
  lemma DefaultNamesDistinct(m: nat, n: nat)
    requires m != n
    ensures DefaultName(m) != DefaultName(n)
  {
  }
}

=== FILE: decimal.dfy ===
/** Decimal rendering of natural numbers, as Python's `str(n)` writes them,
    and its inverse. Used for the default clip names `clip_<n>`. */
module Decimal {

  predicate IsDigit(c: char) {
    '0' <= c <= '9'
  }

  predicate AllDigits(s: string) {
    forall i :: 0 <= i < |s| ==> IsDigit(s[i])
  }

  function DigitChar(d: nat): (c: char)
    requires d < 10
    ensures IsDigit(c)
    ensures DigitValue(c) == d
  {
    (('0' as int) + d) as char
  }

  function DigitValue(c: char): (d: nat)
    requires IsDigit(c)
    ensures d < 10
  {
    (c as int) - ('0' as int)
  }

  /** The decimal text of `n`: only digits, never empty, no leading zero
      unless the number is zero itself. */
  function NatToString(n: nat): (s: string)
    ensures |s| > 0
    ensures AllDigits(s)
    ensures s[0] == '0' ==> n == 0
    decreases n
  {
    if n < 10 then [DigitChar(n)]
    else NatToString(n / 10) + [DigitChar(n % 10)]
  }

  /** Reads a string of decimal digits back as a number (the empty string reads as 0). */
  function ParseNat(s: string): (n: nat)
    requires AllDigits(s)
    decreases |s|
  {
    if |s| == 0 then 0
    else 10 * ParseNat(s[..|s| - 1]) + DigitValue(s[|s| - 1])
  }

  /** Reading back the decimal text of a number yields that number. */
  lemma {:induction false} ParseNatToString(n: nat)
    ensures ParseNat(NatToString(n)) == n
    decreases n
  {
    var s := NatToString(n);
    if n < 10 {
      assert s == [DigitChar(n)];
      assert s[..0] == [];
    } else {
      ParseNatToString(n / 10);
      assert s[..|s| - 1] == NatToString(n / 10);
      assert s[|s| - 1] == DigitChar(n % 10);
    }
  }
}

=== FILE: ffmpeg.dfy ===
/** The ffmpeg argument vector `process` builds for one clip, and a reader for
    the subset of ffmpeg's command-line grammar that vector uses, so that the
    vector can be checked against what it asks ffmpeg to do. */
module Ffmpeg {
  import opened Results

  /** `[ffmpeg, -y, -ss, start, -to, end, -i, src, -c, copy, -avoid_negative_ts, 1, out]`:
      overwrite the output, seek the input to `start`, stop at `end`, copy the
      streams without re-encoding and shift negative timestamps to zero. */
  function ClipCommand(ffmpeg: string, start: string, end: string, src: string, out: string): (argv: seq<string>)
    ensures |argv| == 13
    ensures argv[0] == ffmpeg && argv[|argv| - 1] == out
  {
    [ffmpeg, "-y", "-ss", start, "-to", end, "-i", src, "-c", "copy", "-avoid_negative_ts", "1", out]
  }

  /** What one ffmpeg command line asks for: the program, the options given
      before the input (per-input options such as the seek times, which apply
      to reading it, together with global switches such as `-y`, which ffmpeg
      accepts anywhere before it), the input, the options given after it
      (they apply to writing the output) and the output. */
  datatype Invocation = Invocation(
    program: string,
    inputOptions: map<string, string>,
    input: string,
    outputOptions: map<string, string>,
    output: string)

  /** Options that take no value. */
  const Switches: set<string> := {"-y"}
  /** Options followed by one value. */
  const Valued: set<string> := {"-ss", "-to", "-c", "-avoid_negative_ts"}
  const InputFlag: string := "-i"

  /** Reads options up to the (single) `-i <input>`; returns the options read,
      the input and what follows it. */
  function ReadInput(args: seq<string>, acc: map<string, string>): (r: Option<(map<string, string>, string, seq<string>)>)
    ensures r.Some? ==> acc.Keys <= r.value.0.Keys
    decreases |args|
  {
    if |args| == 0 then None
    else if args[0] in Switches then ReadInput(args[1..], acc[args[0] := ""])
    else if args[0] == InputFlag && |args| >= 2 then Some((acc, args[1], args[2..]))
    else if args[0] in Valued && |args| >= 2 then ReadInput(args[2..], acc[args[0] := args[1]])
    else None
  }

  /** Reads the options between the input and the output file. */
  function ReadOutput(args: seq<string>, acc: map<string, string>): (r: Option<map<string, string>>)
    ensures r.Some? ==> acc.Keys <= r.value.Keys
    decreases |args|
  {
    if |args| == 0 then Some(acc)
    else if args[0] in Switches then ReadOutput(args[1..], acc[args[0] := ""])
    else if args[0] in Valued && |args| >= 2 then ReadOutput(args[2..], acc[args[0] := args[1]])
    else None
  }

  /** Reads a whole argument vector: program, options, one input, options, output. */
  function ParseCommand(argv: seq<string>): (r: Option<Invocation>)
    ensures r.Some? ==> |argv| >= 2 && r.value.program == argv[0] && r.value.output == argv[|argv| - 1]
  {
    if |argv| < 2 then None
    else
      match ReadInput(argv[1..|argv| - 1], map[])
      case None => None
      case Some((inOpts, input, rest)) =>
        match ReadOutput(rest, map[])
        case None => None
        case Some(outOpts) => Some(Invocation(argv[0], inOpts, input, outOpts, argv[|argv| - 1]))
  }

  /** The clip command reads back as: overwrite, seek the input from `start`
      to `end`, read `src`, stream-copy with timestamp normalisation, write
      `out` — whatever text the clip's fields hold. */
  lemma ParseClipCommand(ffmpeg: string, start: string, end: string, src: string, out: string)
    ensures ParseCommand(ClipCommand(ffmpeg, start, end, src, out))
         == Some(Invocation(ffmpeg,
                            map["-y" := "", "-ss" := start, "-to" := end],
                            src,
                            map["-c" := "copy", "-avoid_negative_ts" := "1"],
                            out))
  {
    var argv := ClipCommand(ffmpeg, start, end, src, out);
    var mid := argv[1..|argv| - 1];
    assert mid == ["-y", "-ss", start, "-to", end, "-i", src, "-c", "copy", "-avoid_negative_ts", "1"];
    assert mid[1..] == ["-ss", start, "-to", end, "-i", src, "-c", "copy", "-avoid_negative_ts", "1"];
    assert mid[1..][2..] == ["-to", end, "-i", src, "-c", "copy", "-avoid_negative_ts", "1"];
    assert mid[1..][2..][2..] == ["-i", src, "-c", "copy", "-avoid_negative_ts", "1"];
    var inOpts := map["-y" := "", "-ss" := start, "-to" := end];
    assert "-y" in Switches && "-ss" !in Switches && "-to" !in Switches && "-i" !in Switches;
    assert "-ss" in Valued && "-to" in Valued && "-ss" != InputFlag && "-to" != InputFlag;
    assert ReadInput(mid, map[]) == ReadInput(mid[1..], map["-y" := ""]);
    assert ReadInput(mid[1..], map["-y" := ""]) == ReadInput(mid[1..][2..], map["-y" := "", "-ss" := start]);
    assert ReadInput(mid[1..][2..], map["-y" := "", "-ss" := start]) == ReadInput(mid[1..][2..][2..], inOpts);
    assert ReadInput(mid[1..][2..][2..], inOpts) == Some((inOpts, src, mid[1..][2..][2..][2..]));
    assert mid[1..][2..][2..][2..] == ["-c", "copy", "-avoid_negative_ts", "1"];
    var rest: seq<string> := ["-c", "copy", "-avoid_negative_ts", "1"];
    assert rest[2..] == ["-avoid_negative_ts", "1"];
    assert rest[2..][2..] == [];
    assert "-c" !in Switches && "-avoid_negative_ts" !in Switches;
    assert "-c" in Valued && "-avoid_negative_ts" in Valued;
    assert ReadOutput(rest, map[]) == ReadOutput(rest[2..], map["-c" := "copy"]);
    assert ReadOutput(rest[2..], map["-c" := "copy"]) == ReadOutput(rest[2..][2..], map["-c" := "copy", "-avoid_negative_ts" := "1"]);
  }
}

=== FILE: paths.dfy ===
/** The path functions `process` calls, `splitext` and two-argument `join`,
    with the semantics of Python's `posixpath`; `rfind` and `basename` serve
    to define and state them. */
module Paths {

  const Sep: char := '/'
  const ExtSep: char := '.'

  /** Index of the last occurrence of `c` in `s`, or -1 (Python's `str.rfind`). */
  function RFind(s: string, c: char): (k: int)
    ensures -1 <= k < |s|
    ensures k >= 0 ==> s[k] == c
    ensures forall j :: k < j < |s| ==> s[j] != c
    decreases |s|
  {
    if |s| == 0 then -1
    else if s[|s| - 1] == c then |s| - 1
    else RFind(s[..|s| - 1], c)
  }

  /** True when `s` holds no occurrence of `c`. */
  predicate Free(s: string, c: char) {
    forall j :: 0 <= j < |s| ==> s[j] != c
  }

  /** The final component of a path (`posixpath.basename`). */
  function Basename(p: string): (b: string)
    ensures Free(b, Sep)
    ensures |b| <= |p| && p[|p| - |b|..] == b
  {
    p[RFind(p, Sep) + 1..]
  }

  /** `posixpath.splitext`: the extension is the text from the last dot of
      the final component, provided that component has something other than
      dots before it (".bashrc" has no extension). */
  function SplitExt(p: string): (r: (string, string))
    ensures r.0 + r.1 == p
    ensures r.1 == [] || (r.1[0] == ExtSep && Free(r.1, Sep) && Free(r.1[1..], ExtSep))
    ensures r.1 != [] ==> HasNamedComponent(r.0)
  {
    var sepIndex := RFind(p, Sep);
    var dotIndex := RFind(p, ExtSep);
    if dotIndex > sepIndex && exists j :: sepIndex + 1 <= j < dotIndex && p[j] != ExtSep then
      SplitStemNamed(p, dotIndex);
      (p[..dotIndex], p[dotIndex..])
    else
      (p, [])
  }

  /** Cutting `p` at a dot after its last separator, with a character other
      than a dot between the two, leaves a stem with a named final component. */
  lemma SplitStemNamed(p: string, dotIndex: nat)
    requires RFind(p, Sep) < dotIndex < |p|
    requires exists j :: RFind(p, Sep) + 1 <= j < dotIndex && p[j] != ExtSep
    ensures HasNamedComponent(p[..dotIndex])
  {
    var sepIndex := RFind(p, Sep);
    var stem, rest := p[..dotIndex], p[dotIndex..];
    assert Free(rest, Sep) by {
      forall k | 0 <= k < |rest|
        ensures rest[k] != Sep
      {
        assert rest[k] == p[dotIndex + k];
      }
    }
    assert stem + rest == p;
    RFindPrefix(stem, rest, Sep);
    var j :| sepIndex + 1 <= j < dotIndex && p[j] != ExtSep;
    assert stem[j] == p[j];
  }

  /** The extension part of `p` ("" when it has none). */
  function Ext(p: string): (e: string)
    ensures |e| <= |p| && p[|p| - |e|..] == e
    ensures e == [] || IsExtension(e)
  {
    SplitExt(p).1
  }

  /** `stem` ends in a final component that is not all dots. */
  predicate HasNamedComponent(stem: string) {
    exists j :: RFind(stem, Sep) < j < |stem| && stem[j] != ExtSep
  }

  /** A proper extension: a dot followed by text with no dot and no separator. */
  predicate IsExtension(ext: string) {
    |ext| > 0 && ext[0] == ExtSep && Free(ext[1..], ExtSep) && Free(ext[1..], Sep)
  }

  /** Splitting a stem with a named final component followed by a proper
      extension gives back that stem and that extension. */
  lemma {:induction false} SplitExtOfJoined(stem: string, ext: string)
    requires HasNamedComponent(stem)
    requires IsExtension(ext)
    ensures SplitExt(stem + ext) == (stem, ext)
  {
    var p := stem + ext;
    var dotIndex := |stem|;
    assert p[dotIndex] == ExtSep;
    forall j | dotIndex < j < |p|
      ensures p[j] != ExtSep && p[j] != Sep
    {
      assert p[j] == ext[1..][j - dotIndex - 1];
    }
    RFindAfter(p, ExtSep, dotIndex);
    var s := RFind(stem, Sep);
    RFindPrefix(stem, ext, Sep);
    assert RFind(p, Sep) == s;
    var j :| s < j < |stem| && stem[j] != ExtSep;
    assert p[j] == stem[j];
    assert p[..dotIndex] == stem;
    assert p[dotIndex..] == ext;
  }

  /** If `s[k] == c` and no later position holds `c`, `rfind` returns `k`. */
  lemma {:induction false} RFindAfter(s: string, c: char, k: nat)
    requires k < |s| && s[k] == c
    requires forall j :: k < j < |s| ==> s[j] != c
    ensures RFind(s, c) == k
    decreases |s|
  {
    if k < |s| - 1 {
      RFindAfter(s[..|s| - 1], c, k);
    }
  }

  /** Appending text free of `c` does not move the last occurrence of `c`. */
  lemma {:induction false} RFindPrefix(s: string, t: string, c: char)
    requires Free(t, c)
    ensures RFind(s + t, c) == RFind(s, c)
    decreases |t|
  {
    if |t| > 0 {
      assert (s + t)[..|s + t| - 1] == s + t[..|t| - 1];
      RFindPrefix(s, t[..|t| - 1], c);
    } else {
      assert s + t == s;
    }
  }

  /** `posixpath.join(a, b)`: an absolute `b` replaces `a`; otherwise `b` is
      appended, with a separator unless `a` is empty or already ends in one. */
  function Join(a: string, b: string): (r: string)
    ensures |r| >= |b| && r[|r| - |b|..] == b
    ensures |b| > 0 && b[0] == Sep ==> r == b
    ensures !(|b| > 0 && b[0] == Sep) ==> |r| >= |a| && r[..|a|] == a
    ensures !(|b| > 0 && b[0] == Sep) ==> |r| <= |a| + 1 + |b|
    ensures !(|b| > 0 && b[0] == Sep) ==> (|r| == |a| + 1 + |b| <==> a != [] && a[|a| - 1] != Sep)
    ensures !(|b| > 0 && b[0] == Sep) && |r| == |a| + 1 + |b| ==> r[|a|] == Sep
  {
    if |b| > 0 && b[0] == Sep then b
    else if a == [] || a[|a| - 1] == Sep then a + b
    else a + [Sep] + b
  }

  /** Joining a directory with a name that holds no separator puts that name
      as the final component. */
  lemma JoinBasename(a: string, b: string)
    requires Free(b, Sep)
    ensures Basename(Join(a, b)) == b
  {
    var r := Join(a, b);
    if |b| > 0 && b[0] == Sep {
    } else if a == [] || a[|a| - 1] == Sep {
      RFindPrefix(a, b, Sep);
      if a != [] {
        RFindAfter(a, Sep, |a| - 1);
      }
      assert r[|a|..] == b;
    } else {
      RFindPrefix(a + [Sep], b, Sep);
      RFindAfter(a + [Sep], Sep, |a|);
      assert r == (a + [Sep]) + b;
      assert r[|a| + 1..] == b;
    }
  }
}

=== FILE: project_file.dfy ===
/** The saved clip list ("清单"): the project record, the key/value document
    it is written as, and reading that document back with defaults for
    missing keys. */
module ProjectFile {
  import opened Results
  import opened Clips

  /** What save writes and load restores: the source video path, the output
      directory and the clip list. */
  datatype Project = Project(video: string, out: string, clips: seq<Clip>)

  /** A parsed JSON value. Numbers, booleans and null are not distinguished:
      no field of a project document holds one. */
  datatype Json = JString(s: string) | JArray(items: seq<Json>) | JObject(fields: map<string, Json>) | JScalar

  const VideoKey: string := "video"
  const OutKey: string := "out"
  const ClipsKey: string := "clips"

  /** Why a document cannot be read as a project. */
  datatype LoadError =
    | NotAnObject
    | BadField(key: string)
    | BadClip(index: nat)

  /** A clip record as save writes it: an object of four strings. */
  function ClipToJson(c: Clip): (j: Json)
    ensures j.JObject? && j.fields.Keys == {"start", "end", "name", "status"}
    ensures StringAt(j.fields, "start") == Some(c.start) && StringAt(j.fields, "end") == Some(c.end)
    ensures StringAt(j.fields, "name") == Some(c.name) && StringAt(j.fields, "status") == Some(StatusText(c.status))
  {
    JObject(map["start" := JString(c.start), "end" := JString(c.end),
                "name" := JString(c.name), "status" := JString(StatusText(c.status))])
  }

  /** The string stored under `key`, if the object has one there. */
  function StringAt(fields: map<string, Json>, key: string): Option<string> {
    if key in fields && fields[key].JString? then Some(fields[key].s) else None
  }

  /** A clip record: an object with string `start`, `end`, `name` and `status`. */
  function ClipFromJson(j: Json): (r: Option<Clip>)
    ensures r.Some? <==> j.JObject? && StringAt(j.fields, "start").Some? && StringAt(j.fields, "end").Some?
                         && StringAt(j.fields, "name").Some? && StringAt(j.fields, "status").Some?
    ensures r.Some? ==> Some(r.value.start) == StringAt(j.fields, "start") && Some(r.value.end) == StringAt(j.fields, "end")
                        && Some(r.value.name) == StringAt(j.fields, "name")
                        && Some(StatusText(r.value.status)) == StringAt(j.fields, "status")
    ensures r.Some? ==> Canonical(r.value.status)
  {
    if !j.JObject? then None
    else
      var f := j.fields;
      match (StringAt(f, "start"), StringAt(f, "end"), StringAt(f, "name"), StringAt(f, "status"))
      case (Some(s), Some(e), Some(n), Some(st)) => Some(Clip(s, e, n, ParseStatus(st)))
      case _ => None
  }

  /** Reads the clip records of an array in order; `offset` is the position
      of `items[0]` in the whole array, for the error report. */
  function ClipsFromJson(items: seq<Json>, offset: nat): (r: Result<seq<Clip>, LoadError>)
    ensures r.Success? <==> forall k :: 0 <= k < |items| ==> ClipFromJson(items[k]).Some?
    ensures r.Success? ==> |r.value| == |items| && forall k :: 0 <= k < |items| ==> ClipFromJson(items[k]) == Some(r.value[k])
    ensures r.Failure? ==> r.error.BadClip? && offset <= r.error.index < offset + |items|
    ensures r.Failure? ==> ClipFromJson(items[r.error.index - offset]).None?
                           && forall k :: 0 <= k < r.error.index - offset ==> ClipFromJson(items[k]).Some?
    decreases |items|
  {
    if |items| == 0 then Success([])
    else
      match ClipFromJson(items[0])
      case None => Failure(BadClip(offset))
      case Some(c) =>
        match ClipsFromJson(items[1..], offset + 1)
        case Failure(e) => Failure(e)
        case Success(cs) => Success([c] + cs)
  }

  /** The string field `key`, "" when the key is absent. */
  function StringField(fields: map<string, Json>, key: string): (r: Result<string, LoadError>)
    ensures key !in fields ==> r == Success("")
    ensures key in fields ==> (r.Success? <==> fields[key].JString?)
    ensures r.Success? && key in fields ==> r.value == fields[key].s
  {
    if key !in fields then Success("")
    else if fields[key].JString? then Success(fields[key].s)
    else Failure(BadField(key))
  }

  /** The clip array, [] when the key is absent. */
  function ClipsField(fields: map<string, Json>): (r: Result<seq<Clip>, LoadError>)
    ensures ClipsKey !in fields ==> r == Success([])
    ensures r.Success? <==> ClipsOrAbsent(fields)
    ensures r.Success? && ClipsKey in fields ==>
              |r.value| == |fields[ClipsKey].items| &&
              forall k :: 0 <= k < |r.value| ==> ClipFromJson(fields[ClipsKey].items[k]) == Some(r.value[k])
    ensures r.Success? ==> AllCanonical(r.value)
  {
    if ClipsKey !in fields then Success([])
    else if fields[ClipsKey].JArray? then ClipsFromJson(fields[ClipsKey].items, 0)
    else Failure(BadField(ClipsKey))
  }

  /** Save: an object with exactly the keys `video`, `out` and `clips`. */
  function Save(p: Project): (doc: Json)
    ensures doc.JObject? && doc.fields.Keys == {VideoKey, OutKey, ClipsKey}
    ensures doc.fields[ClipsKey].JArray? && |doc.fields[ClipsKey].items| == |p.clips|
  {
    JObject(map[VideoKey := JString(p.video), OutKey := JString(p.out),
                ClipsKey := JArray(seq(|p.clips|, k requires 0 <= k < |p.clips| => ClipToJson(p.clips[k])))])
  }

  /** The value under `key` is absent or a string. */
  predicate StringOrAbsent(fields: map<string, Json>, key: string) {
    key in fields ==> fields[key].JString?
  }

  /** The clip array is absent, or an array whose every record reads as a clip. */
  predicate ClipsOrAbsent(fields: map<string, Json>) {
    ClipsKey in fields ==>
      fields[ClipsKey].JArray? &&
      forall k :: 0 <= k < |fields[ClipsKey].items| ==> ClipFromJson(fields[ClipsKey].items[k]).Some?
  }

  /** Load: each of the three keys, defaulting to "", "" and [] when absent;
      a present key keeps its value. */
  function Load(doc: Json): (r: Result<Project, LoadError>)
    ensures !doc.JObject? ==> r == Failure(NotAnObject)
    ensures r.Success? <==> doc.JObject? && StringOrAbsent(doc.fields, VideoKey)
                            && StringOrAbsent(doc.fields, OutKey) && ClipsOrAbsent(doc.fields)
    ensures r.Success? ==> AllCanonical(r.value.clips)
    ensures r.Success? && VideoKey !in doc.fields ==> r.value.video == ""
    ensures r.Success? && OutKey !in doc.fields ==> r.value.out == ""
    ensures r.Success? && ClipsKey !in doc.fields ==> r.value.clips == []
    ensures r.Success? && VideoKey in doc.fields ==> r.value.video == doc.fields[VideoKey].s
    ensures r.Success? && OutKey in doc.fields ==> r.value.out == doc.fields[OutKey].s
    ensures r.Success? && ClipsKey in doc.fields ==>
              |r.value.clips| == |doc.fields[ClipsKey].items| &&
              forall k :: 0 <= k < |r.value.clips| ==> ClipFromJson(doc.fields[ClipsKey].items[k]) == Some(r.value.clips[k])
  {
    if !doc.JObject? then Failure(NotAnObject)
    else
      var f := doc.fields;
      match (StringField(f, VideoKey), StringField(f, OutKey), ClipsField(f))
      case (Success(v), Success(o), Success(cs)) => Success(Project(v, o, cs))
      case (Failure(e), _, _) => Failure(e)
      case (_, Failure(e), _) => Failure(e)
      case (_, _, Failure(e)) => Failure(e)
  }

  /** An empty document loads as the empty project. */
  lemma LoadEmptyDocument()
    ensures Load(JObject(map[])) == Success(Project("", "", []))
  {
  }

  /** A document holding only a video path loads with that path and the
      other two defaults. */
  lemma LoadVideoOnly(v: string)
    ensures Load(JObject(map[VideoKey := JString(v)])) == Success(Project(v, "", []))
  {
  }

  /** A clip record written by save reads back as the same clip. */
  lemma ClipFromToJson(c: Clip)
    requires Canonical(c.status)
    ensures ClipFromJson(ClipToJson(c)) == Some(c)
  {
    ParseStatusText(c.status);
  }

  /** Save followed by load gives back the same video path, output directory
      and clip list, in order. */
  lemma LoadSave(p: Project)
    requires AllCanonical(p.clips)
    ensures Load(Save(p)) == Success(p)
  {
    var items := Save(p).fields[ClipsKey].items;
    forall k | 0 <= k < |items|
      ensures ClipFromJson(items[k]) == Some(p.clips[k])
    {
      ClipFromToJson(p.clips[k]);
    }
    var r := ClipsFromJson(items, 0);
    assert r.Success?;
    assert r.value == p.clips;
  }
}

=== FILE: results.dfy ===
/** Option and Result values for the operations of the clip tool that can fail. */
module Results {

  /** An optional value: a selection that may be empty, a path that may be missing. */
  datatype Option<+T> = None | Some(value: T)

  /** Either the value an operation produced or the reason it refused. */
  datatype Result<+T, +E> = Success(value: T) | Failure(error: E)
}

=== FILE: windows_only.dfy ===
/** The ffmpeg call as main.py makes it. Before starting ffmpeg, `process`
    builds a `subprocess.STARTUPINFO` to hide the console window; that class
    exists only on Windows. On Linux and macOS — platforms `find_ffmpeg`
    explicitly looks for an `ffmpeg` binary on — the attribute lookup raises
    before ffmpeg starts, the handler catches it, and the clip is recorded as
    failed. The rest of the model uses the intended call, `Batch.Process`
    with the transcoder as given. */
module WindowsOnlyCall {
  import opened Clips
  import opened Batch
  import BatchTrace

  /** The outcome of the call as written: success needs both Windows and a
      successful ffmpeg run. */
  function AsWrittenTranscoder(onWindows: bool, tx: Transcoder): (t: Transcoder)
    ensures !onWindows ==> forall j, argv :: !t(j, argv)
    ensures onWindows ==> forall j, argv :: t(j, argv) == tx(j, argv)
  {
    (j: nat, argv: seq<string>) => onWindows && tx(j, argv)
  }

  /** As written, a run off Windows marks every clip it attempts failed,
      whatever ffmpeg would have done. */
  lemma AsWrittenFailsOffWindows(job: Job, tx: Transcoder, clips: seq<Clip>)
    ensures var r := Process(job, AsWrittenTranscoder(false, tx), clips);
            forall j :: 0 <= j < |clips| && !IsDone(clips[j]) ==> r.clips[j].status == Failed
  {
    var t := AsWrittenTranscoder(false, tx);
    var r := Process(job, t, clips);
    forall j | 0 <= j < |clips| && !IsDone(clips[j])
      ensures r.clips[j].status == Failed
    {
      assert !t(j, ClipArgv(job, clips[j]));
    }
  }

  /** The discrepancy on one clip: with an ffmpeg that always succeeds, the
      as-written call leaves a pending clip failed off Windows, while the
      intended call leaves it done. */
  lemma OffWindowsCounterexample()
    ensures var clips := [Clip("00:00:00", "00:00:10", "a", Pending)];
            var job := BatchTrace.ScenarioJob();
            && Process(job, AsWrittenTranscoder(false, BatchTrace.AlwaysOk), clips).clips[0].status == Failed
            && Process(job, BatchTrace.AlwaysOk, clips).clips[0].status == Done
  {
    var clips := [Clip("00:00:00", "00:00:10", "a", Pending)];
    var job := BatchTrace.ScenarioJob();
    assert !IsDone(clips[0]);
    AsWrittenFailsOffWindows(job, BatchTrace.AlwaysOk, clips);
    assert BatchTrace.AlwaysOk(0, ClipArgv(job, clips[0]));
  }

  /** On Windows the as-written call is the intended one. */
  lemma AsWrittenOnWindowsIsIntended(job: Job, tx: Transcoder, clips: seq<Clip>)
    ensures Process(job, AsWrittenTranscoder(true, tx), clips).clips == Process(job, tx, clips).clips
  {
    var a := Process(job, AsWrittenTranscoder(true, tx), clips);
    var b := Process(job, tx, clips);
    forall j | 0 <= j < |clips|
      ensures a.clips[j] == b.clips[j]
    {
      assert AsWrittenTranscoder(true, tx)(j, ClipArgv(job, clips[j])) == tx(j, ClipArgv(job, clips[j]));
    }
  }
}
